=== FILE: README.md ===
# MP4 box-tree walker, modelled in Dafny

This project models the box parser of a small Rust video streamer. The
parser lists the box tree of an ISO Base Media File (MP4) file. Clause 4.2 of
ISO/IEC 14496-12 defines each box header as:

- a 32-bit big-endian size;
- a four-byte type;
- when the size field holds the sentinel 1, a 64-bit big-endian "largesize"
  that replaces it.

The parser works in three steps:

- `read_u32` reads a big-endian 32-bit number.
- `read_box` decodes one header at the cursor.
- `parse_mp4_boxes` loops while the cursor is before `end`:
  - it prints the box at the current depth;
  - for the five container types (`moov`, `trak`, `mdia`, `minf`, `stbl`) it
    walks the payload one level deeper, bounded by `offset + size`;
  - it then seeks to `offset + size`, whatever the nested walk read.

The program calls it on the whole file: cursor 0, `end` the file length.

The model is purely functional:

- The file is a `seq<Byte>`. The cursor is an explicit `nat`.
- A read that needs bytes past the end fails, as `read_exact` does. A seek may
  go anywhere, past the end included, and never fails.
- The walk returns a `Trace`: the printed boxes as events
  `(type, size, offset, depth)` in print order, plus how the walk ended.

Modules, by file:

- `byte_source.dfy` (`ByteSource`): bytes, big-endian values and their
  encoding, `read_exact`.
- `utf8_lossy.dfy` (`Utf8Lossy`): Rust's `String::from_utf8_lossy`. The source
  renders every box type through it before comparing with the container names.
- `mp4_parser.dfy` (`Mp4Parser`): `Mp4Box`, `read_u32`, `read_box`, the
  container test, the walk, and the top-level call.
- `walk_properties.dfy` (`WalkProperties`): what every walk guarantees,
  hostile input included.
- `box_writer.dfy` (`BoxWriter`): a box serialiser that is the walker's
  partner. Walking a serialised box tree gives back exactly its boxes, in
  pre-order.
- `walk_examples.dfy` (`WalkExamples`): concrete files on which the unchecked
  walker departs from the standard.

The model follows the code as written, including where it does not harden its
input:

- A resolved size of 0 is not read as "to the end of the file". The walker
  seeks back to the box's own offset and repeats that box forever. The model
  records the box once and ends the trace with `NoProgress`.
- No check that the size covers the header, or that `offset + size` stays
  within `end` or within the file. An undersized box makes the next header be
  read from inside this one. An oversized box sends the cursor past the end,
  and in the model the walk then finishes quietly. The source's seek can
  itself fail for a large enough target (see "Left out").
- No depth limit. In the model, nesting is bounded only by the data. The
  source recurses once per level and is also bounded by its stack (see
  "Left out").
- Missing bytes for the size field end the walk quietly. Missing bytes for
  the type or the 64-bit size are an error. The error propagates through
  every enclosing walk; boxes printed before it stay printed.

Two definitions are written in a form cheaper to reason about, and each comes
with lemmas proving it agrees with the source:

- `read_box` is written flat, on slices of the data rather than through
  `read_u32` and `read_exact`. Its size field is exactly what `read_u32`
  returns there (`BoxWriter.SizeFieldIsReadU32`). Its type and 64-bit size
  are what the two `read_exact` calls return, and it fails exactly when one
  of them fails (`Mp4Parser.ReadBoxFollowsReads`).
- The container test compares the four type bytes. The source instead compares
  the lossy UTF-8 text of those bytes with the names;
  `Mp4Parser.LossyNameTestIsTagTest` proves both tests accept the same byte
  strings.

## Model

| member | source | states |
|---|---|---|
| `Mp4Parser.ReadU32` | src/mp4_parser.rs:11-15 | Succeeds exactly when four bytes remain. The value is b0·2^24 + b1·2^16 + b2·2^8 + b3, below 2^32. The cursor moves by 4. |
| `BoxWriter.ReadU32RoundTrip` | src/mp4_parser.rs:11-15 | Reading four big-endian-encoded bytes gives the number back, with the cursor moved by 4. |
| `BoxWriter.ReadU32Reencodes` | src/mp4_parser.rs:11-15 | A successful read re-encodes to the four bytes it consumed. |
| `ByteSource.BeValueOfBeBytes` | src/mp4_parser.rs:14 | Decoding the big-endian encoding of a number below 256^width gives the number back. |
| `ByteSource.BeBytesOfBeValue` | src/mp4_parser.rs:36 | Encoding a decoded byte string at its own width gives the string back, so the decoding is injective for each width. |
| `ByteSource.BeValueBound` | src/mp4_parser.rs:14 | An n-byte big-endian value is below 256^n, so a u32 stays below 2^32 and a u64 below 2^64. |
| `ByteSource.BeValueOfFour` | src/mp4_parser.rs:14 | The value of four bytes is the positional sum of those bytes. |
| `Mp4Parser.ReadBox` | src/mp4_parser.rs:18-46 | Fewer than 4 bytes at the cursor means end of stream, not an error. Fewer than 8, or fewer than 16 when the size field is 1, means a read error. Otherwise: offset is the cursor; type is bytes 4-8; size is the 64-bit field when the 32-bit one is 1, else the 32-bit field; cursor after a 16- or 8-byte header. |
| `BoxWriter.SizeFieldIsReadU32` | src/mp4_parser.rs:22-25 | The header decoder's "no size field" case is exactly a failed `read_u32`. Otherwise its declared size is `read_u32`'s value at the header start. |
| `Mp4Parser.ReadBoxFollowsReads` | src/mp4_parser.rs:28-36 | Once the size field is read, the header read fails exactly when the 4-byte type read or, for the sentinel 1, the 8-byte extended-size read runs out of data. Otherwise the type is the first read's bytes, the size is the big-endian value of the second, and the cursor ends after it. |
| `BoxWriter.ReadEncodedHeader` | src/mp4_parser.rs:18-46 | A header written with the 32-bit or the 64-bit size form decodes to the same type and size, with the write position as offset and the cursor just past the header. |
| `Utf8Lossy.DecodeStep` | src/mp4_parser.rs:30 | Lossy decoding consumes 1 to 4 bytes per character. An ASCII byte decodes to itself. Any lead byte at or above 0x80 yields a character at or above U+0080, a scalar or U+FFFD. |
| `Utf8Lossy.DecodeIsAsciiIff` | src/mp4_parser.rs:30 | The lossy text of a byte string equals a given ASCII text if and only if the bytes are that text's ASCII bytes. |
| `Mp4Parser.ContainerNameBytes` | src/mp4_parser.rs:57 | Each of the five container names is ASCII, and its bytes are the corresponding tag. |
| `Mp4Parser.LossyNameTestIsTagTest` | src/mp4_parser.rs:57-59 | Looking up the lossy text of the type among the five names accepts exactly the byte strings the byte comparison accepts. |
| `Mp4Parser.IsContainerIffListed` | src/mp4_parser.rs:57-59 | The byte comparison holds if and only if the type is one of the five tags. |
| `Mp4Parser.IsContainer` | src/mp4_parser.rs:57-59 | The container test as a byte comparison against `moov`, `trak`, `mdia`, `minf` and `stbl`. It has no contract of its own. Its agreement with the source's text test is `Mp4Parser.IsContainerIffListed` and `Mp4Parser.LossyNameTestIsTagTest`. |
| `Mp4Parser.Walk` | src/mp4_parser.rs:49-73 | The walker itself: one loop iteration per decoded header, a nested walk for containers, a re-seek to `offset + size`. It has no contract of its own. Its guarantees are the `WalkProperties` rows and the round trip `BoxWriter.WalkEncodedForest`. |
| `Mp4Parser.ParseFile` | src/main.rs:19-23 | The top-level walk over the whole file reports nothing if and only if no header can be decoded at offset 0. |
| `WalkProperties.WalkStopsCleanly` | src/mp4_parser.rs:50-72 | A walk reports nothing and succeeds exactly when the cursor is at or past `end` or no size field is left. A short type or extended size is an error with no report. |
| `WalkProperties.WalkEventsInRange` | src/mp4_parser.rs:49-73 | Every reported box starts at or after the cursor, with its 8 header bytes inside the data. It sits at the walk's depth or deeper. At the walk's own depth, it starts before `end`. |
| `WalkProperties.WalkEventsDecoded` | src/mp4_parser.rs:51-54 | Every reported box is exactly the header the decoder yields at that box's offset. |
| `WalkProperties.WalkSiblingsChained` | src/mp4_parser.rs:59-66 | The boxes reported at the walk's own depth start at the cursor. Each starts where the previous one's `offset + size` ends, however far a nested walk read. |
| `WalkProperties.WalkPreOrder` | src/mp4_parser.rs:53-62 | The report is in pre-order: the first box is at the walk's depth, and each box is at that depth or deeper and at most one level deeper than the box before it. |
| `WalkProperties.WalkParentsEnclose` | src/mp4_parser.rs:57-63 | Every reported box lies in the payload of its parent, the nearest earlier box one level up. It starts at or after the end of the parent's header, 16 bytes for the extended form and 8 otherwise, and before the parent's `offset + size`. The parent is one of the five containers. |
| `WalkProperties.WalkNoProgressIff` | src/mp4_parser.rs:61-65 | A walk ends in `NoProgress` if and only if its last box has size 0. Every earlier box has a positive size. A walk that ends otherwise reported only boxes of positive size. |
| `WalkProperties.WalkFailureWitness` | src/mp4_parser.rs:28-65 | A failed walk tried to read a header that was cut short by the end of the data, in its type or its 64-bit size. That header sits at a position the walk itself visited: its start, the payload start of a reported container, or the end of a reported box where the loop re-seeked. |
| `WalkProperties.ParseFileGuarantees` | src/main.rs:19-23 | For any file, every reported box is a header decoded at its offset inside the file. The report is in pre-order from depth 0, with every box inside its parent's payload. Top-level boxes are chained from offset 0. `NoProgress` comes exactly with a final box of size 0. |
| `BoxWriter.EncodedTreeIsLaid` | src/mp4_parser.rs:18-46 | At every box of a written well-formed tree, the header decoder yields that box's type, size and offset. The container test holds exactly for the tree's containers. |
| `BoxWriter.WalkLaidTree` | src/mp4_parser.rs:49-73 | Walking from a box whose whole tree decodes as laid out reports the box's events in pre-order, then continues right after the box. |
| `BoxWriter.WalkLaidForest` | src/mp4_parser.rs:49-73 | Walking laid-out boxes over exactly their extent reports all their events in pre-order and finishes. |
| `BoxWriter.WalkEncodedTree` | src/mp4_parser.rs:51-66 | Walking a serialised well-formed box reports its events in pre-order, then continues right after the box. |
| `BoxWriter.WalkEncodedForest` | src/mp4_parser.rs:49-73 | Walking serialised well-formed boxes over exactly their extent reports every box, with its offset, depth and size, in pre-order, and finishes. |
| `BoxWriter.ParseEncodedFile` | src/main.rs:19-23 | A file holding serialised well-formed boxes parses to exactly those boxes in pre-order and finishes: the walker inverts the serialiser. |
| `WalkExamples.ZeroSizeMakesNoProgress` | src/mp4_parser.rs:63-65 | An 8-byte box with size field 0 is reported once and the walk makes no progress. |
| `WalkExamples.OversizeBoxAccepted` | src/mp4_parser.rs:33-45 | A header declaring 1000 bytes in a 10-byte file is reported as declared, and the walk finishes without error. |
| `WalkExamples.UndersizeBoxOverlaps` | src/mp4_parser.rs:63-65 | A declared size of 4 makes the walker read a second header from inside the first one. |

## Left out

- src/decoder.rs is not part of this model. It wraps FFmpeg: codec setup, packet and frame decoding, floating-point scaling to RGB.
- The rest of src/main.rs is left out: opening a file at a fixed path and calling the decoder. Only the root-call convention is kept: cursor 0, `end` the file length.
- The printed text is left out: the `println!` line and the `"↳ "` indentation per depth. Each printed line is an `Event` of box and depth.
- The type is kept as its four raw bytes, not the lossy text. The two container tests are proved equivalent.
- I/O errors other than running out of data are left out: a failing `stream_position`, or a device error during a read or seek. They depend on the operating system, not on the bytes.
- Seek failures are left out: in the model a seek never fails. The source's seek to `offset + size` (src/mp4_parser.rs:63, 65) fails past a limit that depends on the operating system and the file system, and `?` returns that error from the walk. The limit is at most 2^63, because the standard library hands a `SeekFrom::Start` position to the operating system as a signed 64-bit number; a file system's maximum file size can make it far lower. For example, the 16-byte file `00 00 00 01`, `free`, `80 00 00 00 00 00 00 00` makes the source return an error, and no u64 overflow is needed for this. The model instead reports the box and finishes.
- Stack exhaustion is left out. The source recurses once per nesting level (src/mp4_parser.rs:62) on a fixed-size stack, so deep enough nesting aborts the process at a depth that depends on the platform. An example is tens of thousands of nested `moov` headers. The model's recursion is unbounded, and it reports every level and finishes.
- u64 arithmetic is left out. `offset + size` is unbounded, so a sum that would overflow in the source (a debug-build panic or a release-build wrap) is not modelled.
- Repetition after a zero size is recorded once. The source prints the repeating box forever; the trace holds it once and ends in `NoProgress`.
- Hardening that the code does not do is left out, because it is not there: reading size 0 as "to the end of the enclosing range", rejecting a size below the header length, rejecting `offset + size` beyond `end`, and a nesting limit. `WalkExamples` shows the resulting behaviour on concrete files.
- Utf8Lossy.Decode: its own contract only bounds the text's length. What the walker needs from it, equality with an ASCII name, is `Utf8Lossy.DecodeIsAsciiIff`.

=== FILE: box_writer.dfy ===
/** Box serialisation following Clause 4.2 of ISO/IEC 14496-12, the
    counterpart of the walker: a tree of boxes is written out as headers and
    payloads, and walking the bytes gives back exactly the tree's boxes, in
    pre-order, at their offsets and depths. */
module BoxWriter {
  import opened ByteSource
  import opened Mp4Parser
  import opened WalkProperties

  /** A box to write: a leaf with opaque payload bytes, or a container whose
      payload is its children laid end to end. `extended` selects the 16-byte
      header with the 64-bit size. */
  datatype BoxTree =
    | Leaf(tag: seq<Byte>, payload: seq<Byte>, extended: bool)
    | Container(tag: seq<Byte>, children: seq<BoxTree>, extended: bool)

  /** Total bytes of a box, header included: the value its size field holds. */
  function Size(t: BoxTree): (n: nat)
    ensures n >= HeaderSize(t.extended)
    decreases t
  {
    match t
    case Leaf(_, payload, extended) => HeaderSize(extended) + |payload|
    case Container(_, children, extended) => HeaderSize(extended) + ForestSize(children)
  }

  function ForestSize(f: seq<BoxTree>): nat
    decreases f
  {
    if |f| == 0 then 0 else Size(f[0]) + ForestSize(f[1..])
  }

  /** A box the walker reads back as written: a four-byte type, a leaf type
      that is not a container name and a container type that is one, a size
      that fits its size field, and well-formed children. */
  predicate WellFormed(t: BoxTree)
    decreases t
  {
    && |t.tag| == 4
    && (if t.extended then Size(t) < U64_LIMIT else Size(t) < U32_LIMIT)
    && match t
       case Leaf(tag, _, _) => !IsContainer(tag)
       case Container(tag, children, _) => IsContainer(tag) && ForestWellFormed(children)
  }

  predicate ForestWellFormed(f: seq<BoxTree>)
    decreases f
  {
    |f| > 0 ==> WellFormed(f[0]) && ForestWellFormed(f[1..])
  }

  /** The header of a box of type `tag` and total size `size`: a 32-bit size
      and the type, or the size sentinel 1, the type and a 64-bit size. */
  function EncodeHeader(tag: seq<Byte>, size: nat, extended: bool): (h: seq<Byte>)
    requires |tag| == 4
    requires if extended then size < U64_LIMIT else size < U32_LIMIT
    ensures |h| == HeaderSize(extended)
  {
    Pow256Limits();
    if extended then BeBytes(1, 4) + tag + BeBytes(size, 8)
    else BeBytes(size, 4) + tag
  }

  function Encode(t: BoxTree): (b: seq<Byte>)
    requires WellFormed(t)
    ensures |b| == Size(t)
    decreases t
  {
    match t
    case Leaf(tag, payload, extended) => EncodeHeader(tag, Size(t), extended) + payload
    case Container(tag, children, extended) => EncodeHeader(tag, Size(t), extended) + EncodeForest(children)
  }

  function EncodeForest(f: seq<BoxTree>): (b: seq<Byte>)
    requires ForestWellFormed(f)
    ensures |b| == ForestSize(f)
    decreases f
  {
    if |f| == 0 then [] else Encode(f[0]) + EncodeForest(f[1..])
  }

  /** The walker's report for a box written at `pos`: the box itself, then,
      for a container, its children one level deeper from the header end. */
  function TreeEvents(t: BoxTree, pos: nat, depth: nat): (s: seq<Event>)
    ensures |s| > 0 && s[0] == Event(Mp4Box(t.tag, Size(t), pos), depth)
    decreases t, 1
  {
    [Event(Mp4Box(t.tag, Size(t), pos), depth)] + NestedEvents(t, pos, depth)
  }

  /** The events of a box's payload: none for a leaf, its children's for a
      container. */
  function NestedEvents(t: BoxTree, pos: nat, depth: nat): seq<Event>
    decreases t, 0
  {
    match t
    case Leaf(_, _, _) => []
    case Container(_, children, extended) => ForestEvents(children, pos + HeaderSize(extended), depth + 1)
  }

  function ForestEvents(f: seq<BoxTree>, pos: nat, depth: nat): (s: seq<Event>)
    ensures |s| >= |f|
    decreases f, 2
  {
    if |f| == 0 then [] else TreeEvents(f[0], pos, depth) + ForestEvents(f[1..], pos + Size(f[0]), depth)
  }

  lemma ForestEventsCons(f: seq<BoxTree>, pos: nat, depth: nat)
    requires |f| > 0
    ensures ForestEvents(f, pos, depth) == TreeEvents(f[0], pos, depth) + ForestEvents(f[1..], pos + Size(f[0]), depth)
  {
  }

  /** `read_u32` inverts big-endian encoding: four encoded bytes read back
      as the number, with the cursor past them. */
  lemma ReadU32RoundTrip(data: seq<Byte>, pos: nat, n: nat)
    requires n < U32_LIMIT
    requires pos + 4 <= |data| && data[pos..pos + 4] == BeBytes(n, 4)
    ensures ReadU32(data, pos) == Ok(n, pos + 4)
  {
    var s := data[pos..pos + 4];
    BeValueOfFour(s);
    BeValueOfBeBytes(n, 4);
  }

  /** Big-endian encoding inverts `read_u32`: a successful read re-encodes
      to the bytes it consumed. */
  lemma ReadU32Reencodes(data: seq<Byte>, pos: nat)
    ensures ReadU32(data, pos).Ok? ==> BeBytes(ReadU32(data, pos).value, 4) == data[pos..pos + 4]
  {
    Pow256Limits();
    if pos + 4 <= |data| {
      var s := data[pos..pos + 4];
      BeValueOfFour(s);
      BeBytesOfBeValue(s);
    }
  }

  /** The size field `read_box` decodes is `read_u32` at the header start. */
  lemma SizeFieldIsReadU32(data: seq<Byte>, pos: nat)
    ensures pos + 4 <= |data| <==> ReadU32(data, pos).Ok?
    ensures pos + 4 <= |data| ==> ReadU32(data, pos) == Ok(DeclaredSize(data, pos), pos + 4)
  {
    if pos + 4 <= |data| {
      BeValueOfFour(data[pos..pos + 4]);
    }
  }

  /** `b` occurs in `data` starting at `pos`, byte by byte. */
  predicate BytesAt(data: seq<Byte>, pos: nat, b: seq<Byte>)
    decreases |b|
  {
    if |b| == 0 then pos <= |data|
    else pos < |data| && data[pos] == b[0] && BytesAt(data, pos + 1, b[1..])
  }

  /** Occurrence at a position is equality with the slice there. */
  lemma {:induction false} BytesAtIsSlice(data: seq<Byte>, pos: nat, b: seq<Byte>)
    ensures BytesAt(data, pos, b) <==> pos + |b| <= |data| && data[pos..pos + |b|] == b
    decreases |b|
  {
    if |b| > 0 {
      BytesAtIsSlice(data, pos + 1, b[1..]);
      if pos + |b| <= |data| {
        assert data[pos..pos + |b|] == [data[pos]] + data[pos + 1..pos + |b|];
        assert b == [b[0]] + b[1..];
      }
    }
  }

  lemma SplitSlice(data: seq<Byte>, pos: nat, a: seq<Byte>, b: seq<Byte>, mid: nat)
    requires BytesAt(data, pos, a + b)
    requires mid == pos + |a|
    ensures BytesAt(data, pos, a) && BytesAt(data, mid, b)
  {
    BytesAtIsSlice(data, pos, a + b);
    BytesAtIsSlice(data, pos, a);
    BytesAtIsSlice(data, mid, b);
    assert data[pos..pos + |a|] == data[pos..pos + |a + b|][..|a|];
    assert data[mid..mid + |b|] == data[pos..pos + |a + b|][|a|..];
  }

  /** Decoding a written header gives back its type and size, with the
      offset where it was written and the cursor just after it. */
  lemma ReadEncodedHeader(data: seq<Byte>, pos: nat, tag: seq<Byte>, size: nat, extended: bool)
    requires |tag| == 4
    requires if extended then size < U64_LIMIT else size != 1 && size < U32_LIMIT
    requires BytesAt(data, pos, EncodeHeader(tag, size, extended))
    ensures ReadBox(data, pos) == Header(Mp4Box(tag, size, pos), pos + HeaderSize(extended))
  {
    Pow256Limits();
    if extended {
      SplitSlice(data, pos, BeBytes(1, 4) + tag, BeBytes(size, 8), pos + 8);
      SplitSlice(data, pos, BeBytes(1, 4), tag, pos + 4);
      BytesAtIsSlice(data, pos, BeBytes(1, 4));
      BytesAtIsSlice(data, pos + 4, tag);
      BytesAtIsSlice(data, pos + 8, BeBytes(size, 8));
      BeValueOfBeBytes(1, 4);
      BeValueOfBeBytes(size, 8);
    } else {
      SplitSlice(data, pos, BeBytes(size, 4), tag, pos + 4);
      BytesAtIsSlice(data, pos, BeBytes(size, 4));
      BytesAtIsSlice(data, pos + 4, tag);
      BeValueOfBeBytes(size, 4);
    }
  }

  /** Splits a written forest into its first box and the rest. */
  lemma SplitForest(data: seq<Byte>, pos: nat, f: seq<BoxTree>)
    requires |f| > 0 && ForestWellFormed(f)
    requires BytesAt(data, pos, EncodeForest(f))
    ensures WellFormed(f[0]) && ForestWellFormed(f[1..])
    ensures BytesAt(data, pos, Encode(f[0]))
    ensures BytesAt(data, pos + Size(f[0]), EncodeForest(f[1..]))
  {
    assert EncodeForest(f) == Encode(f[0]) + EncodeForest(f[1..]);
    SplitSlice(data, pos, Encode(f[0]), EncodeForest(f[1..]), pos + Size(f[0]));
  }

  /** Splits a written box into its header and its payload. */
  lemma SplitTree(data: seq<Byte>, pos: nat, t: BoxTree)
    requires WellFormed(t)
    requires BytesAt(data, pos, Encode(t))
    ensures BytesAt(data, pos, EncodeHeader(t.tag, Size(t), t.extended))
    ensures t.Container? ==> BytesAt(data, pos + HeaderSize(t.extended), EncodeForest(t.children))
  {
    var header := EncodeHeader(t.tag, Size(t), t.extended);
    match t
    case Leaf(_, payload, extended) => SplitSlice(data, pos, header, payload, pos + HeaderSize(extended));
    case Container(_, children, extended) =>
      SplitSlice(data, pos, header, EncodeForest(children), pos + HeaderSize(extended));
  }

  /** The walk from `pos` reports `events` and then goes on exactly as the
      walk from `after` does. */
  predicate Continues(data: seq<Byte>, pos: nat, end: nat, depth: nat, events: seq<Event>, after: nat)
  {
    var rest := Walk(data, after, end, depth);
    Walk(data, pos, end, depth) == Trace(events + rest.events, rest.outcome)
  }

  /** The walk from `pos` reports exactly `events` and finishes. */
  predicate Reports(data: seq<Byte>, pos: nat, end: nat, depth: nat, events: seq<Event>)
  {
    Walk(data, pos, end, depth) == Trace(events, Finished)
  }

  /** One loop iteration over a decoded leaf box of positive size: the box,
      then the walk from `offset + size`. */
  lemma WalkLeafBox(data: seq<Byte>, pos: nat, end: nat, depth: nat, box: Mp4Box, next: nat,
                    nested: seq<Event>, events: seq<Event>, after: nat)
    requires pos < end
    requires ReadBox(data, pos) == Header(box, next)
    requires !IsContainer(box.boxType) && box.size > 0
    requires nested == [] && events == [Event(box, depth)] + nested
    requires after == pos + box.size
    ensures Continues(data, pos, end, depth, events, after)
  {
    WalkHeaderCase(data, pos, end, depth);
  }

  /** One loop iteration over a decoded container of positive size whose
      payload walk reports `nested` and finishes: the box, `nested`, then the
      walk from `offset + size`. */
  lemma WalkContainerBox(data: seq<Byte>, pos: nat, end: nat, depth: nat, box: Mp4Box, next: nat,
                         nested: seq<Event>, events: seq<Event>, after: nat)
    requires pos < end
    requires ReadBox(data, pos) == Header(box, next)
    requires IsContainer(box.boxType) && box.size > 0
    requires after == pos + box.size
    requires Reports(data, next, after, depth + 1, nested)
    requires events == [Event(box, depth)] + nested
    ensures Continues(data, pos, end, depth, events, after)
  {
    WalkHeaderCase(data, pos, end, depth);
  }

  /** A walk that reports `events` up to `after` and from there reports
      `tail` and finishes, reports both and finishes. */
  lemma JoinReports(data: seq<Byte>, pos: nat, end: nat, depth: nat, events: seq<Event>, after: nat,
                    tail: seq<Event>, all: seq<Event>)
    requires Continues(data, pos, end, depth, events, after)
    requires Reports(data, after, end, depth, tail)
    requires all == events + tail
    ensures Reports(data, pos, end, depth, all)
  {
  }

  /** Where the walker finds a box `t` placed at `pos`: the header there
      decodes to the box's type and size, the type classifies the box as what
      it is, and a container's children are laid out after its header. */
  predicate Laid(data: seq<Byte>, pos: nat, t: BoxTree)
    decreases t
  {
    && ReadBox(data, pos) == Header(Mp4Box(t.tag, Size(t), pos), pos + HeaderSize(t.extended))
    && (IsContainer(t.tag) <==> t.Container?)
    && (t.Container? ==> LaidForest(data, pos + HeaderSize(t.extended), t.children))
  }

  /** The boxes of `f` laid out one after the other from `pos`. */
  predicate LaidForest(data: seq<Byte>, pos: nat, f: seq<BoxTree>)
    decreases f
  {
    |f| > 0 ==> Laid(data, pos, f[0]) && LaidForest(data, pos + Size(f[0]), f[1..])
  }

  /** A written well-formed box is laid out where it was written. */
  lemma {:induction false} EncodedTreeIsLaid(data: seq<Byte>, pos: nat, t: BoxTree)
    requires WellFormed(t)
    requires BytesAt(data, pos, Encode(t))
    ensures Laid(data, pos, t)
    decreases t, 1
  {
    SplitTree(data, pos, t);
    ReadEncodedHeader(data, pos, t.tag, Size(t), t.extended);
    if t.Container? {
      EncodedForestIsLaid(data, pos + HeaderSize(t.extended), t.children);
    }
  }

  lemma {:induction false} EncodedForestIsLaid(data: seq<Byte>, pos: nat, f: seq<BoxTree>)
    requires ForestWellFormed(f)
    requires BytesAt(data, pos, EncodeForest(f))
    ensures LaidForest(data, pos, f)
    decreases f, 2
  {
    if |f| > 0 {
      SplitForest(data, pos, f);
      EncodedTreeIsLaid(data, pos, f[0]);
      EncodedForestIsLaid(data, pos + Size(f[0]), f[1..]);
    }
  }

  /** Walking a laid-out box, with more of the range after it: the walker
      reports the box's own events and carries on right after the box. */
  lemma {:induction false} WalkLaidTree(data: seq<Byte>, pos: nat, end: nat, t: BoxTree, depth: nat,
                                        events: seq<Event>, after: nat)
    requires Laid(data, pos, t)
    requires pos < end
    requires events == TreeEvents(t, pos, depth) && after == pos + Size(t)
    ensures Continues(data, pos, end, depth, events, after)
    decreases t, 1
  {
    var hs := HeaderSize(t.extended);
    var box := Mp4Box(t.tag, Size(t), pos);
    var nested := NestedEvents(t, pos, depth);
    assert events == [Event(box, depth)] + nested;
    if t.Container? {
      WalkLaidForest(data, pos + hs, after, t.children, depth + 1, nested);
      WalkContainerBox(data, pos, end, depth, box, pos + hs, nested, events, after);
    } else {
      WalkLeafBox(data, pos, end, depth, box, pos + hs, nested, events, after);
    }
  }

  /** Walking laid-out boxes over exactly their extent reports every box in
      pre-order and finishes. */
  lemma {:induction false} WalkLaidForest(data: seq<Byte>, pos: nat, end: nat, f: seq<BoxTree>, depth: nat,
                                          events: seq<Event>)
    requires LaidForest(data, pos, f)
    requires end == pos + ForestSize(f) && events == ForestEvents(f, pos, depth)
    ensures Reports(data, pos, end, depth, events)
    decreases f, 2
  {
    if |f| == 0 {
      assert end == pos && events == [];
      WalkStopsCleanly(data, pos, end, depth);
    } else {
      var mid := pos + Size(f[0]);
      var head := TreeEvents(f[0], pos, depth);
      var tail := ForestEvents(f[1..], mid, depth);
      ForestEventsCons(f, pos, depth);
      WalkLaidTree(data, pos, end, f[0], depth, head, mid);
      WalkLaidForest(data, mid, end, f[1..], depth, tail);
      JoinReports(data, pos, end, depth, head, mid, tail, events);
    }
  }

  /** Walking a written box, with more of the range after it: the walker
      reports the box's own events and carries on right after the box. */
  lemma WalkEncodedTree(data: seq<Byte>, pos: nat, end: nat, t: BoxTree, depth: nat,
                         events: seq<Event>, after: nat)
    requires WellFormed(t)
    requires BytesAt(data, pos, Encode(t))
    requires pos < end
    requires events == TreeEvents(t, pos, depth) && after == pos + Size(t)
    ensures Continues(data, pos, end, depth, events, after)
  {
    EncodedTreeIsLaid(data, pos, t);
    WalkLaidTree(data, pos, end, t, depth, events, after);
  }

  /** Walking a written forest over exactly its extent reports every box of
      it in pre-order and finishes. */
  lemma WalkEncodedForest(data: seq<Byte>, pos: nat, end: nat, f: seq<BoxTree>, depth: nat)
    requires ForestWellFormed(f)
    requires BytesAt(data, pos, EncodeForest(f))
    requires end == pos + ForestSize(f)
    ensures Reports(data, pos, end, depth, ForestEvents(f, pos, depth))
  {
    var events := ForestEvents(f, pos, depth);
    EncodedForestIsLaid(data, pos, f);
    WalkLaidForest(data, pos, end, f, depth, events);
  }

  /** The file-level round trip: a file holding a written forest parses to
      exactly that forest's boxes, in pre-order, and finishes. */
  lemma ParseEncodedFile(f: seq<BoxTree>)
    requires ForestWellFormed(f)
    ensures ParseFile(EncodeForest(f)) == Trace(ForestEvents(f, 0, 0), Finished)
  {
    var data := EncodeForest(f);
    assert data[0..|data|] == data;
    BytesAtIsSlice(data, 0, data);
    WalkEncodedForest(data, 0, |data|, f, 0);
  }
}

=== FILE: byte_source.dfy ===
/** Bytes, big-endian numbers, and positioned reads from an in-memory byte
    source. The source's reader is a file behind a buffered, seekable reader;
    here it is the file's contents plus a cursor, and a read that needs bytes
    past the end of the contents fails the way `read_exact` does. */
module ByteSource {

  /** One octet of the input. */
  type Byte = b: int | 0 <= b < 256

  /** The only read failure that is modelled: the data ended before the read
      was satisfied. */
  datatype IoError = UnexpectedEof

  /** Outcome of a read at a cursor: the value read and the cursor after it,
      or the error that stopped the read. */
  datatype Read<+T> = Ok(value: T, next: nat) | Err(error: IoError)

  const U32_LIMIT: nat := 0x1_0000_0000
  const U64_LIMIT: nat := 0x1_0000_0000_0000_0000

  /** 256 to the power n: one more than the largest n-byte number. */
  function Pow256(n: nat): (p: nat)
    ensures p > 0
  {
    if n == 0 then 1 else 256 * Pow256(n - 1)
  }

  lemma Pow256Limits()
    ensures Pow256(4) == U32_LIMIT
    ensures Pow256(8) == U64_LIMIT
  {
  }

  /** The number a byte string denotes, most significant byte first. */
  function BeValue(s: seq<Byte>): nat
  {
    if |s| == 0 then 0 else BeValue(s[..|s| - 1]) * 256 + s[|s| - 1]
  }

  /** The `width`-byte big-endian encoding of `n`. */
  function BeBytes(n: nat, width: nat): (s: seq<Byte>)
    requires n < Pow256(width)
    ensures |s| == width
  {
    if width == 0 then [] else BeBytes(n / 256, width - 1) + [n % 256]
  }

  /** An n-byte string denotes a number below 256^n. */
  lemma {:induction false} BeValueBound(s: seq<Byte>)
    ensures BeValue(s) < Pow256(|s|)
  {
    if |s| > 0 {
      BeValueBound(s[..|s| - 1]);
    }
  }

  /** Decoding an encoding gives the number back. */
  lemma {:induction false} BeValueOfBeBytes(n: nat, width: nat)
    requires n < Pow256(width)
    ensures BeValue(BeBytes(n, width)) == n
  {
    if width > 0 {
      var s := BeBytes(n, width);
      assert s[..|s| - 1] == BeBytes(n / 256, width - 1);
      BeValueOfBeBytes(n / 256, width - 1);
    }
  }

  /** Encoding a decoded string gives the string back, so distinct byte
      strings of one width denote distinct numbers. */
  lemma {:induction false} BeBytesOfBeValue(s: seq<Byte>)
    ensures BeValue(s) < Pow256(|s|)
    ensures BeBytes(BeValue(s), |s|) == s
  {
    BeValueBound(s);
    if |s| > 0 {
      var init := s[..|s| - 1];
      BeBytesOfBeValue(init);
      assert BeValue(s) / 256 == BeValue(init);
      assert BeValue(s) % 256 == s[|s| - 1];
      assert s == init + [s[|s| - 1]];
    }
  }

  /** The four-byte case written out as the positional sum. */
  lemma BeValueOfFour(s: seq<Byte>)
    requires |s| == 4
    ensures BeValue(s) == (s[0] as int) * 0x100_0000 + (s[1] as int) * 0x1_0000 + (s[2] as int) * 0x100 + s[3] as int
  {
    var s1, s2, s3 := s[..1], s[..2], s[..3];
    assert s1[..0] == [] && s2[..1] == s1 && s3[..2] == s2 && s[..3] == s3;
    assert BeValue(s1) == s[0];
    assert BeValue(s2) == (s[0] as int) * 0x100 + s[1];
    assert BeValue(s3) == (s[0] as int) * 0x1_0000 + (s[1] as int) * 0x100 + s[2];
  }

  /** `read_exact` of n bytes at `pos`: the bytes, or end-of-data when fewer
      than n bytes remain (a cursor already past the end has none left). */
  function ReadExact(data: seq<Byte>, pos: nat, n: nat): (r: Read<seq<Byte>>)
    ensures r.Ok? ==> |r.value| == n && r.next == pos + n
  {
    if pos + n <= |data| then Ok(data[pos..pos + n], pos + n) else Err(UnexpectedEof)
  }
}

=== FILE: mp4_parser.dfy ===
/** The box-tree walker of an ISO Base Media File Format (MP4) file, as the
    parser in `src/mp4_parser.rs` implements it. Clause 4.2 of ISO/IEC
    14496-12 lays a box out as a 32-bit big-endian size, a four-byte type and,
    when the size is 1, a 64-bit big-endian "largesize" that replaces it.

    The reader there is a seekable stream whose cursor is mutated by every
    read and seek; here the stream is the file's bytes and the cursor is an
    explicit position, so every operation is a pure function of both. */
module Mp4Parser {
  import opened ByteSource
  import Utf8Lossy

  /** One box as the header decoder reports it: its four type bytes, its
      resolved total size (header included), and the position of its first
      header byte. */
  datatype Mp4Box = Mp4Box(boxType: seq<Byte>, size: nat, offset: nat)

  /** What `read_box` returns, with the cursor it leaves behind:
      - EndOfStream: the size field could not be read (`Ok(None)`);
      - Header: a decoded header, `next` being the first payload byte;
      - ReadFailed: the type or the extended size could not be read (`Err`). */
  datatype HeaderRead =
    | EndOfStream
    | Header(box: Mp4Box, next: nat)
    | ReadFailed(error: IoError)

  /** `read_u32`: the next four bytes as a big-endian number, cursor moved
      past them. */
  function ReadU32(data: seq<Byte>, pos: nat): (r: Read<nat>)
    ensures r.Ok? <==> pos + 4 <= |data|
    ensures r.Ok? ==> r.next == pos + 4
    ensures r.Ok? ==> r.value == (data[pos] as int) * 0x100_0000 + (data[pos + 1] as int) * 0x1_0000
                                 + (data[pos + 2] as int) * 0x100 + data[pos + 3] as int
    ensures r.Ok? ==> r.value < U32_LIMIT
  {
    match ReadExact(data, pos, 4)
    case Err(e) => Err(e)
    case Ok(buf, next) =>
      BeValueOfFour(buf);
      BeValueBound(buf);
      Pow256Limits();
      Ok(BeValue(buf), next)
  }

  /** The 32-bit size field of a header that starts at `pos`. */
  function DeclaredSize(data: seq<Byte>, pos: nat): nat
    requires pos + 4 <= |data|
  {
    BeValue(data[pos..pos + 4])
  }

  /** Bytes a header occupies: 16 in the extended form, where the 64-bit
      size follows the type, 8 otherwise. */
  function HeaderSize(extended: bool): nat
  {
    if extended then 16 else 8
  }

  /** Bytes a header with 32-bit size field `declared` occupies: the sentinel
      1 selects the extended form. */
  function HeaderLength(declared: nat): nat
  {
    HeaderSize(declared == 1)
  }

  /** `read_box`: decodes the header at `pos`. Missing bytes for the size
      field end the stream quietly; missing bytes for the type or for the
      extended size are a read error. Nothing about the size is checked. */
  function ReadBox(data: seq<Byte>, pos: nat): (r: HeaderRead)
    ensures r.EndOfStream? <==> |data| < pos + 4
    ensures r.ReadFailed? <==>
              pos + 4 <= |data| && (|data| < pos + 8 || (DeclaredSize(data, pos) == 1 && |data| < pos + 16))
    ensures r.Header? ==>
              && pos + HeaderLength(DeclaredSize(data, pos)) <= |data|
              && r.next == pos + HeaderLength(DeclaredSize(data, pos))
              && r.box.offset == pos
              && r.box.boxType == data[pos + 4..pos + 8]
    ensures r.Header? && DeclaredSize(data, pos) == 1 ==> r.box.size == BeValue(data[pos + 8..pos + 16])
    ensures r.Header? && DeclaredSize(data, pos) != 1 ==> r.box.size == DeclaredSize(data, pos)
  {
    if |data| < pos + 4 then EndOfStream
    else if |data| < pos + 8 then ReadFailed(UnexpectedEof)
    else
      var size := DeclaredSize(data, pos);
      if size != 1 then Header(Mp4Box(data[pos + 4..pos + 8], size, pos), pos + 8)
      else if |data| < pos + 16 then ReadFailed(UnexpectedEof)
      else Header(Mp4Box(data[pos + 4..pos + 8], BeValue(data[pos + 8..pos + 16]), pos), pos + 16)
  }

  /** The flat decoder follows `read_box`'s sequence of reads once the size
      field is there: `read_exact` of the 4 type bytes, then, for the
      sentinel 1, `read_exact` of the 8 extended-size bytes. It fails exactly
      when one of those reads fails, and otherwise its type is the first
      read's bytes and its extended size the big-endian value of the second. */
  lemma ReadBoxFollowsReads(data: seq<Byte>, pos: nat)
    requires pos + 4 <= |data|
    ensures ReadBox(data, pos).ReadFailed? <==>
              ReadExact(data, pos + 4, 4).Err?
              || (DeclaredSize(data, pos) == 1 && ReadExact(data, pos + 8, 8).Err?)
    ensures ReadBox(data, pos).Header? ==> ReadExact(data, pos + 4, 4) == Ok(ReadBox(data, pos).box.boxType, pos + 8)
    ensures ReadBox(data, pos).Header? && DeclaredSize(data, pos) == 1 ==>
              && ReadExact(data, pos + 8, 8).Ok?
              && ReadBox(data, pos).box.size == BeValue(ReadExact(data, pos + 8, 8).value)
              && ReadBox(data, pos).next == ReadExact(data, pos + 8, 8).next
  {
  }

  /** The container names the walker descends into. */
  const ContainerTypes: seq<string> := ["moov", "trak", "mdia", "minf", "stbl"]

  /** The same five names as the raw type bytes of their ASCII spelling. */
  const ContainerTags: seq<seq<Byte>> := [
    [0x6D, 0x6F, 0x6F, 0x76],
    [0x74, 0x72, 0x61, 0x6B],
    [0x6D, 0x64, 0x69, 0x61],
    [0x6D, 0x69, 0x6E, 0x66],
    [0x73, 0x74, 0x62, 0x6C]
  ]

  /** The four type bytes are exactly `c0 c1 c2 c3`. */
  predicate TagIs(boxType: seq<Byte>, c0: Byte, c1: Byte, c2: Byte, c3: Byte)
  {
    |boxType| == 4 && boxType[0] == c0 && boxType[1] == c1 && boxType[2] == c2 && boxType[3] == c3
  }

  /** The container test, byte by byte: `moov`, `trak`, `mdia`, `minf` or
      `stbl`. It spells the tags out rather than testing `in ContainerTags`
      because a disjunction of byte comparisons lets every walk proof decide
      the test without reasoning about sequence membership;
      `IsContainerIffListed` shows the two agree. */
  predicate IsContainer(boxType: seq<Byte>)
  {
    || TagIs(boxType, 0x6D, 0x6F, 0x6F, 0x76)
    || TagIs(boxType, 0x74, 0x72, 0x61, 0x6B)
    || TagIs(boxType, 0x6D, 0x64, 0x69, 0x61)
    || TagIs(boxType, 0x6D, 0x69, 0x6E, 0x66)
    || TagIs(boxType, 0x73, 0x74, 0x62, 0x6C)
  }

  /** The byte-by-byte test is membership in the list of tags. */
  lemma IsContainerIffListed(boxType: seq<Byte>)
    ensures IsContainer(boxType) <==> boxType in ContainerTags
  {
    if |boxType| == 4 {
      assert boxType == [boxType[0], boxType[1], boxType[2], boxType[3]];
    }
  }

  /** The source's own test renders the type bytes as text by lossy UTF-8
      decoding and looks the text up among the names; that test accepts
      exactly the byte strings `IsContainer` accepts. No other byte string,
      valid UTF-8 or not, renders as one of the names, since every byte at or
      above 0x80 decodes to a character at or above U+0080. */
  lemma LossyNameTestIsTagTest(boxType: seq<Byte>)
    ensures Utf8Lossy.Decode(boxType) in ContainerTypes <==> IsContainer(boxType)
  {
    forall i | 0 <= i < 5
      ensures Utf8Lossy.Decode(boxType) == ContainerTypes[i] <==> boxType == ContainerTags[i]
    {
      ContainerNameBytes(i);
      Utf8Lossy.DecodeIsAsciiIff(boxType, ContainerTypes[i]);
    }
    IsContainerIffListed(boxType);
  }

  lemma ContainerNameBytes(i: nat)
    requires i < 5
    ensures Utf8Lossy.IsAscii(ContainerTypes[i])
    ensures Utf8Lossy.AsciiBytes(ContainerTypes[i]) == ContainerTags[i]
  {
    var t := ContainerTypes[i];
    assert |t| == 4 && t[1..][1..][1..][1..] == [];
    assert Utf8Lossy.AsciiBytes(t) == [t[0] as int, t[1] as int, t[2] as int, t[3] as int];
  }

  /** One line of the walker's output: a box and its nesting depth. */
  datatype Event = Event(box: Mp4Box, depth: nat)

  /** How a walk ended:
      - Finished: the loop ran out of range or of data (`Ok(())`);
      - Failed: a header read failed and the error propagated;
      - NoProgress: a box of resolved size 0 sent the cursor back to its own
        offset, so the source loop would repeat that iteration forever. */
  datatype Outcome = Finished | Failed(error: IoError) | NoProgress

  /** The boxes reported, in order, and how the walk ended. Boxes reported
      before a failure are kept: they were printed before the error surfaced. */
  datatype Trace = Trace(events: seq<Event>, outcome: Outcome)

  /** Termination measure: the bytes left from the cursor, plus one. A header
      is only decoded inside the data, and both recursive calls start beyond
      the header's offset. */
  function Remaining(data: seq<Byte>, pos: nat): nat
  {
    if pos <= |data| then |data| - pos + 1 else 0
  }

  /** `parse_mp4_boxes(reader, depth, end)` with the cursor at `pos`: while
      the cursor is before `end`, decode a box, report it, walk the payload
      of a container with bound `offset + size` one level deeper, then seek
      to `offset + size` whatever the nested walk consumed. `rest` is what
      the loop does after this box: stop on a nested error, spin in place on
      a zero size, or carry on from the re-seeked cursor. */
  function Walk(data: seq<Byte>, pos: nat, end: nat, depth: nat): (r: Trace)
    decreases Remaining(data, pos)
  {
    if pos >= end then Trace([], Finished)
    else
      match ReadBox(data, pos)
      case EndOfStream => Trace([], Finished)
      case ReadFailed(e) => Trace([], Failed(e))
      case Header(box, next) =>
        var boxEnd := box.offset + box.size;
        var children :=
          if IsContainer(box.boxType) then Walk(data, next, boxEnd, depth + 1)
          else Trace([], Finished);
        var rest :=
          if !children.outcome.Finished? then Trace([], children.outcome)
          else if boxEnd == pos then Trace([], NoProgress)
          else Walk(data, boxEnd, end, depth);
        Trace([Event(box, depth)] + children.events + rest.events, rest.outcome)
  }

  /** The top-level call: the whole file, from position 0, at depth 0. */
  function ParseFile(data: seq<Byte>): (r: Trace)
    ensures r.events == [] <==> !ReadBox(data, 0).Header?
  {
    Walk(data, 0, |data|, 0)
  }
}

=== FILE: utf8_lossy.dfy ===
/** Lossy UTF-8 decoding of a byte string into text, as Rust's
    `String::from_utf8_lossy` does it: well-formed sequences decode to their
    scalar values, and each maximal ill-formed subpart becomes one U+FFFD
    REPLACEMENT CHARACTER. The box walker renders every box type through this
    conversion before comparing it with the container names. */
module Utf8Lossy {
  import opened ByteSource

  const REPLACEMENT: char := '\U{FFFD}'

  /** The byte at index i, or 0 past the end; 0 is never a continuation
      byte, so a sequence cut short by the end of input is ill-formed. */
  function ByteAt(b: seq<Byte>, i: nat): Byte
  {
    if i < |b| then b[i] else 0
  }

  predicate IsContinuation(x: Byte)
  {
    0x80 <= x <= 0xBF
  }

  /** Allowed second bytes after a three-byte lead: no overlong forms after
      0xE0 and no surrogates after 0xED. */
  predicate SecondOfThree(lead: Byte, x: Byte)
  {
    if lead == 0xE0 then 0xA0 <= x <= 0xBF
    else if lead == 0xED then 0x80 <= x <= 0x9F
    else IsContinuation(x)
  }

  /** Allowed second bytes after a four-byte lead: no overlong forms after
      0xF0 and nothing above U+10FFFF after 0xF4. */
  predicate SecondOfFour(lead: Byte, x: Byte)
  {
    if lead == 0xF0 then 0x90 <= x <= 0xBF
    else if lead == 0xF4 then 0x80 <= x <= 0x8F
    else IsContinuation(x)
  }

  /** One decoded character and the number of bytes it used. */
  datatype Step = Step(c: char, width: nat)

  /** Decodes the character at the front of a non-empty byte string. An
      ill-formed sequence consumes the lead byte and every continuation byte
      accepted before the first one that does not fit, and yields U+FFFD. */
  function DecodeStep(b: seq<Byte>): (s: Step)
    requires |b| > 0
    ensures 1 <= s.width <= |b| && s.width <= 4
    ensures b[0] < 0x80 ==> s == Step(b[0] as char, 1)
    ensures b[0] >= 0x80 ==> s.c as int >= 0x80
  {
    var lead: int := b[0];
    var b1: int := ByteAt(b, 1);
    var b2: int := ByteAt(b, 2);
    var b3: int := ByteAt(b, 3);
    if lead < 0x80 then
      Step(lead as char, 1)
    else if 0xC2 <= lead <= 0xDF then
      if !IsContinuation(ByteAt(b, 1)) then Step(REPLACEMENT, 1)
      else Step(((lead - 0xC0) * 0x40 + (b1 - 0x80)) as char, 2)
    else if 0xE0 <= lead <= 0xEF then
      if !SecondOfThree(lead, ByteAt(b, 1)) then Step(REPLACEMENT, 1)
      else if !IsContinuation(ByteAt(b, 2)) then Step(REPLACEMENT, 2)
      else Step(((lead - 0xE0) * 0x1000 + (b1 - 0x80) * 0x40 + (b2 - 0x80)) as char, 3)
    else if 0xF0 <= lead <= 0xF4 then
      if !SecondOfFour(lead, ByteAt(b, 1)) then Step(REPLACEMENT, 1)
      else if !IsContinuation(ByteAt(b, 2)) then Step(REPLACEMENT, 2)
      else if !IsContinuation(ByteAt(b, 3)) then Step(REPLACEMENT, 3)
      else Step(((lead - 0xF0) * 0x4_0000 + (b1 - 0x80) * 0x1000 + (b2 - 0x80) * 0x40 + (b3 - 0x80)) as char, 4)
    else
      Step(REPLACEMENT, 1)
  }

  /** The lossy decoding of a whole byte string. */
  function Decode(b: seq<Byte>): (t: string)
    ensures |t| <= |b|
    decreases |b|
  {
    if |b| == 0 then "" else
    var step := DecodeStep(b);
    [step.c] + Decode(b[step.width..])
  }

  predicate IsAscii(t: string)
  {
    forall i :: 0 <= i < |t| ==> t[i] as int < 0x80
  }

  /** The bytes of an ASCII string, one byte per character. */
  function AsciiBytes(t: string): (b: seq<Byte>)
    requires IsAscii(t)
    ensures |b| == |t|
  {
    if |t| == 0 then [] else [t[0] as int] + AsciiBytes(t[1..])
  }

  /** Lossy decoding yields a given ASCII string exactly when the input is
      that string's bytes: every non-ASCII lead byte produces a character at
      or above U+0080 (a decoded scalar or U+FFFD), never an ASCII one. */
  lemma {:induction false} DecodeIsAsciiIff(b: seq<Byte>, t: string)
    requires IsAscii(t)
    ensures Decode(b) == t <==> b == AsciiBytes(t)
    decreases |b|
  {
    if |b| > 0 && |t| > 0 {
      var step := DecodeStep(b);
      assert Decode(b) == [step.c] + Decode(b[step.width..]);
      assert t[0] as int < 0x80;
      if Decode(b) == t {
        assert step.c == t[0];
        assert b[0] < 0x80;
        DecodeIsAsciiIff(b[1..], t[1..]);
        assert b == [b[0]] + b[1..];
      }
      if b == AsciiBytes(t) {
        assert b[0] == t[0] as int && b[1..] == AsciiBytes(t[1..]);
        DecodeIsAsciiIff(b[1..], t[1..]);
        assert t == [t[0]] + t[1..];
      }
    }
  }
}

=== FILE: walk_examples.dfy ===
/** Concrete files on which the walker, having no size checks, departs from
    what Clause 4.2 of ISO/IEC 14496-12 asks of a reader. */
module WalkExamples {
  import opened ByteSource
  import opened Mp4Parser

  const FREE: seq<Byte> := [0x66, 0x72, 0x65, 0x65]
  const MDAT: seq<Byte> := [0x6D, 0x64, 0x61, 0x74]

  /** An 8-byte `free` box whose size field is 0. The standard reads 0 as
      "extends to the end of the file"; the walker takes it literally, seeks
      back to the box's own offset and would report it forever. */
  lemma ZeroSizeMakesNoProgress()
    ensures ParseFile([0, 0, 0, 0] + FREE) == Trace([Event(Mp4Box(FREE, 0, 0), 0)], NoProgress)
  {
    var data: seq<Byte> := [0, 0, 0, 0] + FREE;
    assert data[0..4] == [0, 0, 0, 0];
    BeValueOfFour(data[0..4]);
    assert data[4..8] == FREE;
    assert ReadBox(data, 0) == Header(Mp4Box(FREE, 0, 0), 8);
  }

  /** A 10-byte file holding an `mdat` header that declares 1000 bytes. No
      check compares the size with the data or the range: the box is
      reported as declared, the seek lands past the end, and the walk
      finishes without error. */
  lemma OversizeBoxAccepted()
    ensures ParseFile([0, 0, 0x03, 0xE8] + MDAT + [0, 0]) == Trace([Event(Mp4Box(MDAT, 1000, 0), 0)], Finished)
  {
    var data: seq<Byte> := [0, 0, 0x03, 0xE8] + MDAT + [0, 0];
    assert data[0..4] == [0, 0, 0x03, 0xE8];
    BeValueOfFour(data[0..4]);
    assert data[4..8] == MDAT;
    assert ReadBox(data, 0) == Header(Mp4Box(MDAT, 1000, 0), 8);
    assert Walk(data, 1000, 10, 0) == Trace([], Finished);
  }

  /** A declared size of 4, smaller than the 8-byte header: the next box is
      read from the middle of this one's header, its type bytes taken as a
      size field. Here those bytes are 0, 0, 0, 8, so a second box of size 8
      is reported at offset 4 over the first box's type and payload. */
  lemma UndersizeBoxOverlaps()
    ensures var data: seq<Byte> := [0, 0, 0, 4, 0, 0, 0, 8] + FREE;
            ParseFile(data)
              == Trace([Event(Mp4Box([0, 0, 0, 8], 4, 0), 0), Event(Mp4Box(FREE, 8, 4), 0)], Finished)
  {
    var data: seq<Byte> := [0, 0, 0, 4, 0, 0, 0, 8] + FREE;
    assert data[0..4] == [0, 0, 0, 4];
    BeValueOfFour(data[0..4]);
    assert data[4..8] == [0, 0, 0, 8];
    BeValueOfFour(data[4..8]);
    assert data[8..12] == FREE;
    assert ReadBox(data, 0) == Header(Mp4Box([0, 0, 0, 8], 4, 0), 8);
    assert ReadBox(data, 4) == Header(Mp4Box(FREE, 8, 4), 12);
    assert Walk(data, 12, 12, 0) == Trace([], Finished);
    assert Walk(data, 4, 12, 0) == Trace([Event(Mp4Box(FREE, 8, 4), 0)], Finished);
  }
}

=== FILE: walk_properties.dfy ===
/** What the box walker guarantees for every input, hostile ones included:
    where reported boxes lie, that each one is a header actually decoded at
    its offset, that siblings follow each other at `offset + size`, that the
    report is in pre-order, and how a walk ends. */
module WalkProperties {
  import opened ByteSource
  import opened Mp4Parser

  /** The nested walk of a decoded box: its payload's walk for a container,
      nothing for any other box. */
  function ChildWalk(data: seq<Byte>, header: HeaderRead, depth: nat): Trace
    requires header.Header?
  {
    if IsContainer(header.box.boxType)
    then Walk(data, header.next, header.box.offset + header.box.size, depth + 1)
    else Trace([], Finished)
  }

  /** What the loop does after a decoded box and its nested walk. */
  function RestWalk(data: seq<Byte>, header: HeaderRead, end: nat, depth: nat, children: Trace): Trace
    requires header.Header?
  {
    var boxEnd := header.box.offset + header.box.size;
    if !children.outcome.Finished? then Trace([], children.outcome)
    else if boxEnd == header.box.offset then Trace([], NoProgress)
    else Walk(data, boxEnd, end, depth)
  }

  /** One iteration of the loop over a decoded header. */
  lemma WalkHeaderCase(data: seq<Byte>, pos: nat, end: nat, depth: nat)
    requires pos < end && ReadBox(data, pos).Header?
    ensures var header := ReadBox(data, pos);
            var children := ChildWalk(data, header, depth);
            var rest := RestWalk(data, header, end, depth, children);
            Walk(data, pos, end, depth) == Trace([Event(header.box, depth)] + children.events + rest.events, rest.outcome)
  {
  }

  /** A walk reports nothing and succeeds exactly when the cursor is already
      at or past `end` or the size field cannot be read there. */
  lemma WalkStopsCleanly(data: seq<Byte>, pos: nat, end: nat, depth: nat)
    ensures Walk(data, pos, end, depth) == Trace([], Finished) <==> pos >= end || ReadBox(data, pos).EndOfStream?
    ensures Walk(data, pos, end, depth).events == [] <==> pos >= end || !ReadBox(data, pos).Header?
    ensures pos < end && ReadBox(data, pos).ReadFailed? ==> Walk(data, pos, end, depth) == Trace([], Failed(UnexpectedEof))
  {
  }

  /** Every reported box starts at or after the cursor and has its 8-byte
      header inside the data; it is reported at the walk's depth or deeper,
      and a box at the walk's own depth starts before `end`. */
  lemma {:induction false} WalkEventsInRange(data: seq<Byte>, pos: nat, end: nat, depth: nat)
    ensures forall e <- Walk(data, pos, end, depth).events ::
              && pos <= e.box.offset
              && e.box.offset + 8 <= |data|
              && depth <= e.depth
              && (e.depth == depth ==> e.box.offset < end)
    decreases Remaining(data, pos)
  {
    if pos < end && ReadBox(data, pos).Header? {
      var header := ReadBox(data, pos);
      var boxEnd := header.box.offset + header.box.size;
      var children := ChildWalk(data, header, depth);
      if IsContainer(header.box.boxType) {
        WalkEventsInRange(data, header.next, boxEnd, depth + 1);
      }
      if children.outcome.Finished? && boxEnd != pos {
        WalkEventsInRange(data, boxEnd, end, depth);
      }
      WalkHeaderCase(data, pos, end, depth);
    }
  }

  /** Every box in `events` is exactly what the header decoder yields at the
      box's offset. */
  predicate Decoded(data: seq<Byte>, events: seq<Event>)
  {
    forall e <- events :: ReadBox(data, e.box.offset).Header? && ReadBox(data, e.box.offset).box == e.box
  }

  lemma JoinDecoded(data: seq<Byte>, event: Event, children: seq<Event>, rest: seq<Event>, all: seq<Event>)
    requires ReadBox(data, event.box.offset).Header? && ReadBox(data, event.box.offset).box == event.box
    requires Decoded(data, children) && Decoded(data, rest)
    requires all == [event] + children + rest
    ensures Decoded(data, all)
  {
  }

  /** Every reported box is exactly what the header decoder yields at the
      box's offset: type, resolved size and offset all come from there. */
  lemma {:induction false} WalkEventsDecoded(data: seq<Byte>, pos: nat, end: nat, depth: nat)
    ensures Decoded(data, Walk(data, pos, end, depth).events)
    decreases Remaining(data, pos)
  {
    if pos < end && ReadBox(data, pos).Header? {
      var header := ReadBox(data, pos);
      var boxEnd := header.box.offset + header.box.size;
      var children := ChildWalk(data, header, depth);
      var rest := RestWalk(data, header, end, depth, children);
      var t := Walk(data, pos, end, depth);
      if IsContainer(header.box.boxType) {
        WalkEventsDecoded(data, header.next, boxEnd, depth + 1);
      }
      if children.outcome.Finished? && boxEnd != pos {
        WalkEventsDecoded(data, boxEnd, end, depth);
      } else {
        assert rest.events == [];
      }
      WalkHeaderCase(data, pos, end, depth);
      JoinDecoded(data, Event(header.box, depth), children.events, rest.events, t.events);
    }
  }

  /** The events reported at one depth, in order. */
  function AtDepth(events: seq<Event>, depth: nat): (s: seq<Event>)
    ensures forall e <- s :: e in events && e.depth == depth
  {
    if |events| == 0 then []
    else (if events[0].depth == depth then [events[0]] else []) + AtDepth(events[1..], depth)
  }

  lemma {:induction false} AtDepthAppend(a: seq<Event>, b: seq<Event>, depth: nat)
    ensures AtDepth(a + b, depth) == AtDepth(a, depth) + AtDepth(b, depth)
  {
    if |a| > 0 {
      assert (a + b)[1..] == a[1..] + b;
      AtDepthAppend(a[1..], b, depth);
    } else {
      assert a + b == b;
    }
  }

  lemma {:induction false} AtDepthNone(a: seq<Event>, depth: nat)
    requires forall e <- a :: e.depth != depth
    ensures AtDepth(a, depth) == []
  {
    if |a| > 0 {
      assert a[0] in a;
      AtDepthNone(a[1..], depth);
    }
  }

  /** The k-th box starts where the box before it ends. */
  predicate FollowsPrevious(s: seq<Event>, k: nat)
    requires 0 < k < |s|
  {
    s[k].box.offset == s[k - 1].box.offset + s[k - 1].box.size
  }

  /** Boxes laid end to end: the first starts at `start`, and each next one
      starts where the previous one's declared size ends. */
  predicate Chained(s: seq<Event>, start: nat)
  {
    && (|s| > 0 ==> s[0].box.offset == start)
    && (forall k :: 0 < k < |s| ==> FollowsPrevious(s, k))
  }

  lemma ChainedCons(event: Event, s: seq<Event>, start: nat)
    requires event.box.offset == start
    requires Chained(s, event.box.offset + event.box.size)
    ensures Chained([event] + s, start)
  {
    var all := [event] + s;
    forall k | 0 < k < |all|
      ensures FollowsPrevious(all, k)
    {
      if k > 1 {
        assert FollowsPrevious(s, k - 1);
      }
    }
  }

  /** A nested walk adds nothing at the parent's depth. */
  lemma TopLevelOfStep(event: Event, children: seq<Event>, rest: seq<Event>, depth: nat)
    requires event.depth == depth
    requires forall e <- children :: e.depth > depth
    ensures AtDepth([event] + children + rest, depth) == [event] + AtDepth(rest, depth)
  {
    AtDepthNone(children, depth);
    AtDepthAppend([event], children, depth);
    AtDepthAppend([event] + children, rest, depth);
    assert AtDepth([event], depth) == [event];
  }

  lemma JoinChained(event: Event, children: seq<Event>, rest: seq<Event>, depth: nat, all: seq<Event>)
    requires event.depth == depth
    requires forall e <- children :: e.depth > depth
    requires Chained(AtDepth(rest, depth), event.box.offset + event.box.size)
    requires all == [event] + children + rest
    ensures Chained(AtDepth(all, depth), event.box.offset)
  {
    TopLevelOfStep(event, children, rest, depth);
    ChainedCons(event, AtDepth(rest, depth), event.box.offset);
  }

  /** Because the walker re-seeks to `offset + size` after every box, the
      boxes it reports at its own depth are chained from the cursor, however
      far a nested walk read. */
  lemma {:induction false} WalkSiblingsChained(data: seq<Byte>, pos: nat, end: nat, depth: nat)
    ensures Chained(AtDepth(Walk(data, pos, end, depth).events, depth), pos)
    decreases Remaining(data, pos)
  {
    if pos < end && ReadBox(data, pos).Header? {
      var header := ReadBox(data, pos);
      var boxEnd := header.box.offset + header.box.size;
      var children := ChildWalk(data, header, depth);
      var rest := RestWalk(data, header, end, depth, children);
      var t := Walk(data, pos, end, depth);
      if IsContainer(header.box.boxType) {
        WalkEventsInRange(data, header.next, boxEnd, depth + 1);
      }
      assert forall e <- children.events :: e.depth > depth;
      if children.outcome.Finished? && boxEnd != pos {
        WalkSiblingsChained(data, boxEnd, end, depth);
      } else {
        assert rest.events == [];
      }
      WalkHeaderCase(data, pos, end, depth);
      JoinChained(Event(header.box, depth), children.events, rest.events, depth, t.events);
    }
  }

  /** The i-th event is no shallower than `depth` and at most one level
      deeper than the event before it. */
  predicate StepsFromPrevious(events: seq<Event>, i: nat, depth: nat)
    requires 0 < i < |events|
  {
    depth <= events[i].depth <= events[i - 1].depth + 1
  }

  /** Depth-first pre-order shape, starting at `depth`. */
  predicate PreOrder(events: seq<Event>, depth: nat)
  {
    && (|events| > 0 ==> events[0].depth == depth)
    && (forall i :: 0 < i < |events| ==> StepsFromPrevious(events, i, depth))
  }

  lemma JoinPreOrder(event: Event, children: seq<Event>, rest: seq<Event>, depth: nat)
    requires event.depth == depth
    requires PreOrder(children, depth + 1)
    requires PreOrder(rest, depth)
    ensures PreOrder([event] + children + rest, depth)
  {
    var all := [event] + children + rest;
    var n := |children|;
    forall i | 0 < i < |all|
      ensures StepsFromPrevious(all, i, depth)
    {
      if i <= n {
        assert all[i] == children[i - 1];
        if i > 1 {
          assert all[i - 1] == children[i - 2];
          assert StepsFromPrevious(children, i - 1, depth + 1);
        }
      } else {
        assert all[i] == rest[i - 1 - n];
        if i > n + 1 {
          assert all[i - 1] == rest[i - 2 - n];
          assert StepsFromPrevious(rest, i - 1 - n, depth);
        } else if n > 0 {
          assert all[i - 1] == children[n - 1];
          if n > 1 {
            assert StepsFromPrevious(children, n - 1, depth + 1);
          }
        }
      }
    }
  }

  /** The walk reports in pre-order: every box before its contents, a
      container's contents before its next sibling. */
  lemma {:induction false} WalkPreOrder(data: seq<Byte>, pos: nat, end: nat, depth: nat)
    ensures PreOrder(Walk(data, pos, end, depth).events, depth)
    decreases Remaining(data, pos)
  {
    if pos < end && ReadBox(data, pos).Header? {
      var header := ReadBox(data, pos);
      var event := Event(header.box, depth);
      var boxEnd := header.box.offset + header.box.size;
      var children := ChildWalk(data, header, depth);
      var rest := RestWalk(data, header, end, depth, children);
      if IsContainer(header.box.boxType) {
        WalkPreOrder(data, header.next, boxEnd, depth + 1);
      }
      if children.outcome.Finished? && boxEnd != pos {
        WalkPreOrder(data, boxEnd, end, depth);
      }
      WalkHeaderCase(data, pos, end, depth);
      JoinPreOrder(event, children.events, rest.events, depth);
    }
  }

  /** The child starts in the parent's payload: at or after the end of the
      parent's header, 16 bytes long in the extended form and 8 otherwise,
      and before the parent's `offset + size`; and the parent is a
      container. */
  predicate Encloses(data: seq<Byte>, parent: Mp4Box, child: Mp4Box)
  {
    && IsContainer(parent.boxType)
    && ReadBox(data, parent.offset).Header?
    && ReadBox(data, parent.offset).next <= child.offset < parent.offset + parent.size
  }

  /** Every event strictly between the j-th and the i-th is deeper than the
      j-th. */
  predicate DeeperBetween(events: seq<Event>, j: nat, i: nat)
    requires j < i <= |events|
  {
    forall k :: j < k < i ==> events[k].depth > events[j].depth
  }

  /** The j-th event is the i-th one's parent: one level shallower, with no
      event as shallow as the parent in between. */
  predicate ParentOf(events: seq<Event>, j: nat, i: nat)
    requires j < i < |events|
  {
    events[i].depth == events[j].depth + 1 && DeeperBetween(events, j, i)
  }

  /** Every box lies in the payload of its parent. */
  predicate InParents(data: seq<Byte>, events: seq<Event>)
  {
    forall j, i :: 0 <= j < i < |events| ==> ParentOf(events, j, i) ==> Encloses(data, events[j].box, events[i].box)
  }

  lemma JoinParents(data: seq<Byte>, event: Event, children: seq<Event>, rest: seq<Event>, depth: nat)
    requires event.depth == depth
    requires forall e <- children :: e.depth > depth
    requires forall e <- children :: e.depth == depth + 1 ==> Encloses(data, event.box, e.box)
    requires |rest| > 0 ==> rest[0].depth == depth
    requires InParents(data, children) && InParents(data, rest)
    ensures InParents(data, [event] + children + rest)
  {
    var all := [event] + children + rest;
    var n := |children|;
    forall j, i | 0 <= j < i < |all|
      ensures ParentOf(all, j, i) ==> Encloses(data, all[j].box, all[i].box)
    {
      if i <= n {
        assert all[i] == children[i - 1];
        assert children[i - 1] in children;
        if j > 0 {
          assert all[j] == children[j - 1];
          if DeeperBetween(all, j, i) {
            forall k | j - 1 < k < i - 1
              ensures children[k].depth > children[j - 1].depth
            {
              assert all[k + 1] == children[k];
            }
            assert ParentOf(all, j, i) ==> ParentOf(children, j - 1, i - 1);
          }
        }
      } else if j > n {
        assert all[i] == rest[i - 1 - n];
        assert all[j] == rest[j - 1 - n];
        if DeeperBetween(all, j, i) {
          forall k | j - 1 - n < k < i - 1 - n
            ensures rest[k].depth > rest[j - 1 - n].depth
          {
            assert all[k + 1 + n] == rest[k];
          }
          assert ParentOf(all, j, i) ==> ParentOf(rest, j - 1 - n, i - 1 - n);
        }
      } else {
        assert all[n + 1] == rest[0];
        if j > 0 {
          assert all[j] == children[j - 1];
          assert children[j - 1] in children;
        }
        assert all[n + 1].depth <= all[j].depth;
        assert !ParentOf(all, j, i);
      }
    }
  }

  /** Every box the walk reports lies in the payload of its parent, the
      container it was found in: the nested walk starts right after the
      container's header and is bounded by its `offset + size`, and the
      boxes it reports one level down are the container's children. */
  lemma {:induction false} WalkParentsEnclose(data: seq<Byte>, pos: nat, end: nat, depth: nat)
    ensures InParents(data, Walk(data, pos, end, depth).events)
    decreases Remaining(data, pos)
  {
    if pos < end && ReadBox(data, pos).Header? {
      var header := ReadBox(data, pos);
      var event := Event(header.box, depth);
      var boxEnd := header.box.offset + header.box.size;
      var children := ChildWalk(data, header, depth);
      var rest := RestWalk(data, header, end, depth, children);
      if IsContainer(header.box.boxType) {
        WalkParentsEnclose(data, header.next, boxEnd, depth + 1);
        WalkEventsInRange(data, header.next, boxEnd, depth + 1);
      }
      if children.outcome.Finished? && boxEnd != pos {
        WalkParentsEnclose(data, boxEnd, end, depth);
        WalkPreOrder(data, boxEnd, end, depth);
      }
      WalkHeaderCase(data, pos, end, depth);
      JoinParents(data, event, children.events, rest.events, depth);
    }
  }

  /** The last event, when there is one, has resolved size 0. */
  predicate EndsWithZeroSize(events: seq<Event>)
  {
    |events| > 0 && events[|events| - 1].box.size == 0
  }

  /** Every event except possibly the last has a positive size. */
  predicate PositiveBeforeLast(events: seq<Event>)
  {
    forall i :: 0 <= i < |events| - 1 ==> events[i].box.size > 0
  }

  /** Every event has a positive size. */
  predicate AllPositive(events: seq<Event>)
  {
    forall e <- events :: e.box.size > 0
  }

  lemma JoinSizes(event: Event, children: seq<Event>, rest: seq<Event>)
    requires event.box.size > 0
    requires AllPositive(children)
    requires PositiveBeforeLast(rest)
    ensures PositiveBeforeLast([event] + children + rest)
    ensures EndsWithZeroSize([event] + children + rest) <==> EndsWithZeroSize(rest)
  {
    var all := [event] + children + rest;
    var n := |children|;
    forall i | 0 <= i < |all| - 1
      ensures all[i].box.size > 0
    {
      if 0 < i <= n {
        assert all[i] == children[i - 1];
        assert children[i - 1] in children;
      } else if i > n {
        assert all[i] == rest[i - 1 - n];
      }
    }
    if |rest| == 0 {
      assert all[|all| - 1] == if n == 0 then event else children[n - 1];
      if n > 0 {
        assert children[n - 1] in children;
      }
    } else {
      assert all[|all| - 1] == rest[|rest| - 1];
    }
  }

  /** How sizes and the NoProgress outcome fit together in a trace: it ends
      in NoProgress exactly when its last box has size 0, every earlier box
      has a positive size, and a trace that ends otherwise has only boxes of
      positive size. */
  predicate SizeShape(t: Trace)
  {
    && (t.outcome == NoProgress <==> EndsWithZeroSize(t.events))
    && PositiveBeforeLast(t.events)
    && (t.outcome != NoProgress ==> AllPositive(t.events))
  }

  lemma JoinSizeShape(event: Event, children: Trace, rest: Trace)
    requires event.box.size > 0
    requires SizeShape(children)
    requires children.outcome.Finished? ==> SizeShape(rest)
    requires !children.outcome.Finished? ==> rest == Trace([], children.outcome)
    ensures SizeShape(Trace([event] + children.events + rest.events, rest.outcome))
  {
    if children.outcome.Finished? {
      JoinSizes(event, children.events, rest.events);
    } else {
      assert [event] + children.events + rest.events == [event] + [] + children.events;
      JoinSizes(event, [], children.events);
    }
  }

  /** A walk ends in NoProgress exactly when the last box it reported has
      resolved size 0; every earlier box has a positive size, so nothing is
      reported after a zero-size box, and a walk that ends otherwise
      reported only boxes of positive size. */
  lemma {:induction false} WalkNoProgressIff(data: seq<Byte>, pos: nat, end: nat, depth: nat)
    ensures SizeShape(Walk(data, pos, end, depth))
    decreases Remaining(data, pos)
  {
    if pos < end && ReadBox(data, pos).Header? {
      var header := ReadBox(data, pos);
      var event := Event(header.box, depth);
      var boxEnd := header.box.offset + header.box.size;
      var children := ChildWalk(data, header, depth);
      var rest := RestWalk(data, header, end, depth, children);
      WalkHeaderCase(data, pos, end, depth);
      if IsContainer(header.box.boxType) {
        WalkNoProgressIff(data, header.next, boxEnd, depth + 1);
      }
      if header.box.size == 0 {
        assert children.events == [] && rest == Trace([], NoProgress);
        assert [event] + children.events + rest.events == [event];
      } else {
        if children.outcome.Finished? {
          WalkNoProgressIff(data, boxEnd, end, depth);
        }
        JoinSizeShape(event, children, rest);
      }
    }
  }

  /** `p` is a position at which a walk started at `pos`, having reported
      `events`, decoded or tried to decode a header: its own start, the
      payload start of a reported container (where its nested walk begins),
      or the end of a reported box (where the loop re-seeks). */
  predicate Visits(data: seq<Byte>, pos: nat, events: seq<Event>, p: nat)
  {
    || p == pos
    || exists e <- events ::
         || p == e.box.offset + e.box.size
         || (IsContainer(e.box.boxType) && ReadBox(data, e.box.offset).Header? && p == ReadBox(data, e.box.offset).next)
  }

  /** `p` explains a failure of the walk started at `pos` that reported
      `events`: the walk visited `p`, and the header there was cut short by
      the end of the data within its first 16 bytes. */
  predicate FailsAt(data: seq<Byte>, pos: nat, events: seq<Event>, p: nat)
  {
    && pos <= p
    && ReadBox(data, p).ReadFailed?
    && p + 4 <= |data| < p + 16
    && Visits(data, pos, events, p)
  }

  /** A failed trace of the walk from `pos` has a position explaining it. */
  ghost predicate FailureExplained(data: seq<Byte>, pos: nat, t: Trace)
  {
    t.outcome.Failed? ==> exists p :: FailsAt(data, pos, t.events, p)
  }

  /** A failure of a container's nested walk explains the failure of the
      walk that reported the container. */
  lemma FailsAtNested(data: seq<Byte>, event: Event, children: seq<Event>, rest: seq<Event>, p: nat)
    requires IsContainer(event.box.boxType)
    requires ReadBox(data, event.box.offset).Header?
    requires FailsAt(data, ReadBox(data, event.box.offset).next, children, p)
    ensures FailsAt(data, event.box.offset, [event] + children + rest, p)
  {
    var all := [event] + children + rest;
    if p == ReadBox(data, event.box.offset).next {
      assert all[0] == event;
    } else {
      var e :| e in children && (p == e.box.offset + e.box.size
                                 || (IsContainer(e.box.boxType) && ReadBox(data, e.box.offset).Header?
                                     && p == ReadBox(data, e.box.offset).next));
      assert e in all;
    }
  }

  /** A failure of the walk from a box's end explains the failure of the walk
      that reported the box. */
  lemma FailsAtAfter(data: seq<Byte>, event: Event, children: seq<Event>, rest: seq<Event>, p: nat)
    requires FailsAt(data, event.box.offset + event.box.size, rest, p)
    ensures FailsAt(data, event.box.offset, [event] + children + rest, p)
  {
    var all := [event] + children + rest;
    if p == event.box.offset + event.box.size {
      assert all[0] == event;
    } else {
      var e :| e in rest && (p == e.box.offset + e.box.size
                             || (IsContainer(e.box.boxType) && ReadBox(data, e.box.offset).Header?
                                     && p == ReadBox(data, e.box.offset).next));
      assert e in all;
    }
  }

  /** The failure that ends a walk comes from a header the walk actually
      tried to read: at its start, at a reported container's payload, or
      where it re-seeked after a reported box. That header's type or 64-bit
      size was cut short by the end of the data, within its first 16 bytes. */
  lemma {:induction false} WalkFailureWitness(data: seq<Byte>, pos: nat, end: nat, depth: nat)
    ensures FailureExplained(data, pos, Walk(data, pos, end, depth))
    decreases Remaining(data, pos)
  {
    if pos < end {
      var header := ReadBox(data, pos);
      if header.ReadFailed? {
        assert FailsAt(data, pos, [], pos);
        WalkStopsCleanly(data, pos, end, depth);
      } else if header.Header? {
        var event := Event(header.box, depth);
        var boxEnd := header.box.offset + header.box.size;
        var children := ChildWalk(data, header, depth);
        var rest := RestWalk(data, header, end, depth, children);
        WalkHeaderCase(data, pos, end, depth);
        if children.outcome.Failed? {
          WalkFailureWitness(data, header.next, boxEnd, depth + 1);
          var p :| FailsAt(data, header.next, children.events, p);
          FailsAtNested(data, event, children.events, rest.events, p);
        } else if children.outcome.Finished? && boxEnd != pos {
          WalkFailureWitness(data, boxEnd, end, depth);
          if rest.outcome.Failed? {
            var p :| FailsAt(data, boxEnd, rest.events, p);
            FailsAtAfter(data, event, children.events, rest.events, p);
          }
        }
      }
    }
  }

  /** What the top-level call guarantees for any file: every reported box is
      a header decoded at its offset, inside the file; the report is in
      pre-order from depth 0, each box inside its parent's payload; the
      top-level boxes are chained from offset 0; and the walk ends in
      NoProgress exactly when its last box has size 0. */
  lemma ParseFileGuarantees(data: seq<Byte>)
    ensures forall e <- ParseFile(data).events ::
              && e.box.offset + 8 <= |data|
              && ReadBox(data, e.box.offset).Header?
              && ReadBox(data, e.box.offset).box == e.box
    ensures PreOrder(ParseFile(data).events, 0)
    ensures InParents(data, ParseFile(data).events)
    ensures Chained(AtDepth(ParseFile(data).events, 0), 0)
    ensures SizeShape(ParseFile(data))
  {
    WalkEventsInRange(data, 0, |data|, 0);
    WalkEventsDecoded(data, 0, |data|, 0);
    WalkPreOrder(data, 0, |data|, 0);
    WalkParentsEnclose(data, 0, |data|, 0);
    WalkSiblingsChained(data, 0, |data|, 0);
    WalkNoProgressIff(data, 0, |data|, 0);
  }
}
